=== FILE: README.md ===
# Order intake and queue dispatch — a Dafny model

This project models the order path of a small order-intake web service
(`app.py`): the in-memory order store `ORDERS`, the `create_order` and
`list_orders` routes, the best-effort publish `send_to_sqs`, and the
background consumer `poll_sqs` that receives, logs and deletes queue
messages for ever. Everything is pure: the store is a `seq<Order>`, each
route is a function from the old store and the request to the new store,
the reply and a trace of side effects, and the consumer loop is a step
function driven by a finite script of queue outcomes.

Modules (one file each):

- `Wrappers` — `Option` and `Result`.
- `Json` — decoded JSON values and Python truthiness of them.
- `Orders` — the order record, its four-key JSON object, the store
  operations (prepend, list the first 20) and the id-distinctness invariant.
- `Config` — the start-up derivation of `SQS_ENABLED`, the client and the poll wait.
- `Events` — the effect trace (store insert, send/receive/delete with the
  queue URL they target and their outcome, log lines, sleeps) and
  projections of it (sends, acks, sleeps, ...).
- `Publisher` — `send_to_sqs`.
- `Poller` — `poll_sqs` as `Poll`/`Iteration`/`Loop` over `Tick`s, plus the
  start-up thread decision.
- `Seqs` — sequence reversal and the facts about it that describe the
  store after a run.
- `Service` — payload selection, order building, `create_order`,
  `list_orders`, and a run of calls against one store.

Oracles. The id generator and the clock are fields of each request
(`id`, `now`); uniqueness of ids is an assumption (`FreshIds`), not
something the handler checks. The queue service answers through
parameters: `sendOk` for the one publish attempt, and for each consumer
iteration a `Tick` giving the receive answer (failure, or a response that
may lack the `Messages` key) and the batch positions whose delete raises.

Behaviour of the code that a reader might not expect, and that the model
keeps:

- A JSON body that is truthy but not an object (a non-empty list or string,
  a non-zero number, `true`) is chosen as the payload, and `payload.get`
  then raises, so the request fails with the framework's 500 and the store
  is unchanged (`Service.CreateOrder`).
- `customer` and `notes` hold whatever JSON value the payload carried
  (`null`, a number, an empty string), so the model's `Order` holds JSON
  values there; only an absent key is defaulted.
- Not only a failed receive triggers the consumer's back-off: a failed
  delete, and a message without a `ReceiptHandle` (whose lookup raises after
  its body has been logged), abort the rest of the batch through the same
  handler.

## Model

| member | source | states |
|---|---|---|
| Config.UrlSet | app.py:24 | the truthiness of the optional queue URL: false exactly when it is unset or the empty string |
| Config.Load | app.py:22-26 | `SQS_ENABLED` is the truthiness of the queue URL, which is kept as given; a client exists iff enabled; the poll wait is 10 when unset |
| Json.Truthy | app.py:171 | a value is falsy exactly when it is `null`, `false`, `0`, the empty string, the empty list or the empty object |
| Config.LoadedActiveIff | app.py:22-26 | for a start-up configuration, the guard of both queue functions passes iff the URL is set and non-empty |
| Orders.ToJson | app.py:172-177 | an order's JSON object has exactly the keys `id`, `customer`, `notes`, `createdAt` |
| Orders.RoundTrip | app.py:172-180 | the object returned with 201 and published reads back as the same order |
| Orders.FromJsonOnlyEncodings | app.py:172-177 | anything that reads back as an order is exactly that order's four-key object |
| Orders.Insert | app.py:178 | the new order is at index 0 and every older order is unchanged, shifted by one |
| Orders.ListOrders | app.py:166 | the listing has length min(store size, 20) and is the store's prefix in store order |
| Orders.ListAfterInsert | app.py:166-178 | after an insert the listing is the new order followed by the previous listing cut to 19 entries |
| Orders.InsertKeepsIdsDistinct | app.py:173-178 | inserting an order with an unused id keeps all stored ids distinct |
| Publisher.SendToSqs | app.py:122-132 | no effect at all when the queue path is off; otherwise the first effect is the one send of the order's JSON to the configured queue URL with its outcome, followed by exactly one failure line when it raised and by nothing when it succeeded |
| Publisher.PublishedBodyIsOrder | app.py:127-130 | every sent message body reads back as the published order |
| Poller.StopIndex | app.py:148-153 | batch processing stops at the first message without a receipt handle or whose delete raises, or at the end of the batch |
| Poller.BackoffEffects | app.py:154-156 | the error handler is one error line and one 5-second sleep, with no queue call |
| Poller.Visit | app.py:149-153 | visiting a message first logs its body, then, only when it has a receipt handle, makes one delete call with that handle against the given queue URL, failing iff the delete raises |
| Poller.VisitEffects | app.py:149-153 | visiting a message logs its body; a message with a receipt handle gets one delete call with that handle, acknowledged iff the delete does not raise; one without a handle gets no delete call |
| Poller.ProcessBatch | app.py:148-156 | an exhausted batch does nothing and any other begins by logging the body of its next message; BatchShape, BatchAcks, BatchDeleteAttempts, BatchLogs and BatchBackoff characterise the whole batch |
| Poller.StopStepBacksOff | app.py:148-156 | a message without a handle, or whose delete raises, is where the batch stops, and the batch then shows exactly one error line and one back-off and no receive or send |
| Poller.BatchShape | app.py:148-156 | a batch's events are the visits of the messages it reached, in batch order, followed by the back-off exactly when it stopped before its end |
| Poller.BatchAcks | app.py:148-153 | the acknowledged handles are those of the messages before the stop position, in batch order |
| Poller.BatchDeleteAttempts | app.py:148-156 | delete calls are made with the handles of the messages up to and including the stopping one, in batch order, and for none after it |
| Poller.BatchLogs | app.py:148-149 | each message up to and including the stopping one has its body logged, in batch order, and none after |
| Poller.BatchBackoff | app.py:148-156 | a batch ends with exactly one error line and one back-off when it stopped before its end, and with none when every message was acknowledged |
| Poller.BatchQuiet | app.py:148-153 | processing a batch makes no receive and no send |
| Poller.Iteration | app.py:141-147 | every pass of the loop body begins with the receive call on the configured queue URL for at most 10 messages, the configured wait and a 30-second visibility timeout; IterationSpec and IterationAcks state the rest |
| Poller.IterationSpec | app.py:140-156 | each iteration starts with the one receive call of the iteration, on the configured queue URL, asking for at most 10 messages with the configured wait and a 30-second visibility timeout; it backs off exactly when it hits an exception and never publishes; a failed receive is followed by exactly the error line and then the 5-second sleep, with no delete call and nothing logged or acknowledged |
| Poller.IterationAcks | app.py:141-153 | after a successful receive the iteration acks the handles of the batch prefix before the stop position, in order, attempts deletes and logs bodies for the prefix up to and including the stopping message |
| Poller.Loop | app.py:140-147 | a run of the loop has at least one effect per pass and starts with the first pass's receive call; LoopSpec and NeverExits state the totals |
| Poller.LoopSpec | app.py:140-156 | over any script the receive outcomes are those of the ticks, in tick order; there is one sleep and one error line per failing tick; nothing is published |
| Poller.Poll | app.py:135-140 | with the queue path off the consumer returns at once with no effect; otherwise it announces itself and is in its loop |
| Poller.NeverExits | app.py:140-156 | with the queue path on, after any number of iterations the consumer is still looping, has issued one receive per iteration with the ticks' outcomes, and slept once per failing one |
| Poller.Boot | app.py:203-205 | the consumer is started, and runs `poll_sqs`, exactly when `SQS_ENABLED`; any receive implies the queue path is live |
| Poller.CleanBatchFullyAcked | app.py:142-153 | after one successful receive, a batch whose messages all have handles and delete cleanly is acknowledged in full, in order, without back-off |
| Poller.FailedReceiveBacksOff | app.py:141-156 | an iteration whose receive fails records that one failed receive, then the error line and the 5-second sleep, with no delete call and no acknowledgement |
| Poller.BatchTargetsQueue | app.py:148-153 | every delete call of a batch is made against the queue URL the consumer was given |
| Poller.IterationTargetsQueue | app.py:141-153 | the receive and every delete of an iteration are made against the configured queue URL |
| Poller.PollTargetsQueue | app.py:135-156 | however long the consumer runs, it calls no queue but the configured one |
| Poller.RecoversAfterReceiveError | app.py:140-156 | a failed receive is followed by one back-off and a new receive whose clean batch is fully acknowledged |
| Service.SelectPayload | app.py:171 | the payload is the JSON object if the body is truthy, else the form if non-empty, else empty; a truthy non-object body is an error |
| Service.Field | app.py:174-175 | `payload.get` copies a present value through whatever it is, and yields the default exactly when the key is absent or carries that very value |
| Service.BuildOrder | app.py:172-177 | present `customer`/`notes` values are copied through, absent ones default to `"anonymous"`/`""`; id and timestamp come from the oracles |
| Service.DefaultOnlyWhenAbsent | app.py:174-175 | a field equals its default iff the key is absent or carried that very value |
| Service.EmptyObjectGetsDefaults | app.py:171-175 | an empty JSON object with no form fields yields both defaults |
| Service.CreateOrder | app.py:170-180 | fails iff the body is truthy non-object JSON; otherwise the order is the one built from the selected payload with the request's id and time, is stored at the front, is replied with 201, is inserted first, and the effects after the insert are exactly those of `send_to_sqs` for that order and the request's send outcome |
| Service.CreateIndependentOfSend | app.py:178-180 | the new store, the order and the reply are the same whether the publish succeeds or fails |
| Service.ListReply | app.py:164-166 | the listing reply is `{"orders": [...]}` whose items read back as the first min(n, 20) stored orders |
| Service.Handle | app.py:164-180 | a read replies 200 with the listing of the unchanged store; a create succeeds iff `create_order` does, and then prepends that order and replies 201 with its object and the same effects; a failed one leaves the store unchanged with a bodiless 500 |
| Service.Serve | app.py:164-180 | calls are handled one after another against the one store: one reply per call, at most one new order per call, and the store grows by exactly the orders created; ServeStore, ServeCreated, ServeReplies and ServeListing state the rest |
| Service.ServeStore | app.py:178 | after any run of calls the store is the run's orders newest first in front of the untouched old store |
| Service.ServeCreated | app.py:170-180 | a run creates exactly one order per accepted `Post`, in call order, built from that request; the store does not affect which requests succeed |
| Service.ServeReplies | app.py:164-180 | reply n of a run answers call n: 200 for a listing, 201 for an accepted creation, 500 for a rejected one |
| Service.ServeListing | app.py:166-178 | after a run with N accepted creations the listing shows min(old + N, 20) orders: those orders newest first, then the old store in order |
| Service.ServeKeepsIdsDistinct | app.py:173-178 | with fresh ids from the generator, stored ids stay pairwise distinct |
| Service.PublishFailureIsolated | app.py:126-132 | a create whose publish fails still replies 201 and the next listing starts with that order |
| Service.ReadIsIdempotent | app.py:164-166 | two reads with no write between them give the same reply and leave the store unchanged |

## Left out

- HTTP routing, the JSON text encoding done by `json.dumps`/`jsonify`, the
  `INDEX_HTML` page and `/health`: framework glue; replies are modelled as a
  status and a JSON value, and the 500 error page as a reply with no body.
- `db_config` and `db_check`: environment reading and a database connect,
  outside the order path.
- `now_iso` and `uuid4`: wall-clock time and randomness become the request's
  `now` and `id` fields.
- Config.Load: does not model the two ways start-up itself can fail, each
  of which stops the module from loading at all. The textual `int()` parse
  of `SQS_POLL_SECONDS` raises on a malformed value; the model takes the
  environment value as an already parsed integer. `boto3.client("sqs")`
  can raise when the queue path is enabled, for example with no region
  configured; the model assumes the client is built whenever
  `SQS_ENABLED` holds.
- Logging output and `time.sleep` are kept only as events in the trace;
  the daemon thread and the concurrency of requests against the global
  list are not modelled (calls are handled one after another).
- The queue service's own semantics (visibility timeout, redelivery,
  ordering, long-poll waiting) belong to the managed service; receive and
  delete are oracles answering success or failure.
- Exceptions that are not `Exception` subclasses (interrupts, process exit)
  and failures inside the logger or the sleep itself.
- JSON floating-point numbers: numbers are integers, with zero falsy.
- Form fields with several values: the model keeps the first value per key,
  which is what `.get` returns.
- The cloud infrastructure stack definitions: declarative resource wiring
  whose meaning lives in the provisioning library.

=== FILE: config.dfy ===
/** Queue configuration read from the environment at start-up. */
module Config {
  import opened Wrappers

  /** Long-poll wait used when `SQS_POLL_SECONDS` is not set. */
  const DefaultPollSeconds: int := 10

  /** `enabled` is `SQS_ENABLED`; `hasClient` is whether a queue client was built. */
  datatype Config = Config(queueUrl: Option<string>, pollSeconds: int, enabled: bool, hasClient: bool)

  /** Python truthiness of the optional queue URL: unset and empty are both false. */
  predicate UrlSet(url: Option<string>): (t: bool)
    ensures t <==> url != None && url != Some("")
  {
    match url
    case None => false
    case Some(u) => u != ""
  }

  /** The start-up derivation: the feature flag is the truthiness of the URL,
      and a client exists exactly when the flag is on. */
  function Load(queueUrlEnv: Option<string>, pollSecondsEnv: Option<int>): (c: Config)
    ensures c.enabled <==> UrlSet(queueUrlEnv)
    ensures c.hasClient == c.enabled
    ensures c.queueUrl == queueUrlEnv
    ensures pollSecondsEnv.None? ==> c.pollSeconds == DefaultPollSeconds
    ensures pollSecondsEnv.Some? ==> c.pollSeconds == pollSecondsEnv.value
  {
    var enabled := UrlSet(queueUrlEnv);
    Config(queueUrlEnv, pollSecondsEnv.GetOr(DefaultPollSeconds), enabled, enabled)
  }

  /** The guard both queue operations check before touching the queue. */
  predicate Active(c: Config) {
    c.enabled && c.hasClient
  }

  /** For a configuration built at start-up, the queue path is live exactly
      when a non-empty queue URL was given. */
  lemma LoadedActiveIff(queueUrlEnv: Option<string>, pollSecondsEnv: Option<int>)
    ensures Active(Load(queueUrlEnv, pollSecondsEnv)) <==> UrlSet(queueUrlEnv)
  {
  }
}

=== FILE: events.dfy ===
/** Observable effects of the order path: store writes, queue calls with
    their outcome, log lines and sleeps, in the order they happen. */
module Events {
  import opened Json
  import opened Wrappers
  import Orders

  datatype LogLine =
    | SendFailed                          // publish raised; logged and swallowed
    | PollerStarted
    | ReceivedMessage(body: Option<string>)
    | PollError                           // receive or delete raised

  datatype Event =
    | Inserted(order: Orders.Order)
    | Sent(queue: Option<string>, body: Value, ok: bool)
    | ReceiveCalled(queue: Option<string>, maxMessages: nat, waitSeconds: int, visibilityTimeout: nat, ok: bool)
    | Deleted(queue: Option<string>, handle: string, ok: bool)
    | Log(line: LogLine)
    | Slept(seconds: nat)

  /** What a trace shows through each observation the properties talk about:
      publish bodies, receive outcomes, acknowledged handles, all delete
      attempts, logged message bodies, sleeps, and consumer error lines. */
  datatype Summary = Summary(
    sends: seq<Value>,
    receives: seq<bool>,
    acks: seq<string>,
    deletes: seq<string>,
    bodies: seq<Option<string>>,
    sleeps: seq<int>,
    errors: seq<LogLine>)

  const Nothing: Summary := Summary([], [], [], [], [], [], [])

  /** The summary of two traces run back to back. */
  function Plus(a: Summary, b: Summary): Summary {
    Summary(a.sends + b.sends, a.receives + b.receives, a.acks + b.acks, a.deletes + b.deletes,
            a.bodies + b.bodies, a.sleeps + b.sleeps, a.errors + b.errors)
  }

  lemma PlusAssociative(x: Summary, y: Summary, z: Summary)
    ensures Plus(Plus(x, y), z) == Plus(x, Plus(y, z))
  {
    assert (x.sends + y.sends) + z.sends == x.sends + (y.sends + z.sends);
  }

  /** What a log line contributes: consumed bodies and consumer errors. */
  function OfLine(line: LogLine): Summary {
    match line
    case ReceivedMessage(body) => Nothing.(bodies := [body])
    case PollError => Nothing.(errors := [PollError])
    case SendFailed => Nothing
    case PollerStarted => Nothing
  }

  /** What a single event contributes. */
  function Of(e: Event): Summary {
    match e
    case Inserted(_) => Nothing
    case Sent(_, body, _) => Nothing.(sends := [body])
    case ReceiveCalled(_, _, _, _, ok) => Nothing.(receives := [ok])
    case Deleted(_, h, ok) => Nothing.(acks := if ok then [h] else [], deletes := [h])
    case Log(line) => OfLine(line)
    case Slept(seconds) => Nothing.(sleeps := [seconds])
  }

  function Summarize(es: seq<Event>): Summary {
    if es == [] then Nothing else Plus(Of(es[0]), Summarize(es[1..]))
  }

  /** Summarizing two traces run back to back is adding their summaries. */
  lemma {:induction false} SummarizeAppend(a: seq<Event>, b: seq<Event>)
    ensures Summarize(a + b) == Plus(Summarize(a), Summarize(b))
  {
    if a == [] {
      assert a + b == b;
    } else {
      assert (a + b)[0] == a[0];
      assert (a + b)[1..] == a[1..] + b;
      SummarizeAppend(a[1..], b);
      PlusAssociative(Of(a[0]), Summarize(a[1..]), Summarize(b));
    }
  }

  lemma SummarizeOne(e: Event)
    ensures Summarize([e]) == Of(e)
  {
    assert [e][1..] == [];
  }
  /** An event that records nothing leaves the summary of what follows it unchanged. */
  lemma QuietPrefix(e: Event, es: seq<Event>)
    requires Of(e) == Nothing
    ensures Summarize([e] + es) == Summarize(es)
  {
    assert ([e] + es)[1..] == es;
    var s := Summarize(es);
    assert Plus(Nothing, s) == Summary(s.sends, s.receives, s.acks, s.deletes, s.bodies, s.sleeps, s.errors);
  }


  /** Bodies of all send attempts, in order. */
  function Sends(es: seq<Event>): seq<Value> { Summarize(es).sends }

  /** Outcomes of all receive calls, in order. */
  function Receives(es: seq<Event>): seq<bool> { Summarize(es).receives }

  /** A trace records no receive outcome exactly when it holds no receive call. */
  /** A call to the queue service; each carries the queue URL it was made with. */
  predicate QueueCall(e: Event) {
    e.Sent? || e.ReceiveCalled? || e.Deleted?
  }

  /** Every queue call in the trace is made against queue `q`. */
  predicate Targets(es: seq<Event>, q: Option<string>) {
    forall n :: 0 <= n < |es| && QueueCall(es[n]) ==> es[n].queue == q
  }

  /** Two traces that each target `q` run back to back still target `q`. */
  lemma TargetsAppend(a: seq<Event>, b: seq<Event>, q: Option<string>)
    requires Targets(a, q) && Targets(b, q)
    ensures Targets(a + b, q)
  {
    forall n | 0 <= n < |a + b| && QueueCall((a + b)[n])
      ensures (a + b)[n].queue == q
    {
      if n >= |a| {
        assert (a + b)[n] == b[n - |a|];
      }
    }
  }

  lemma {:induction false} NoReceives(es: seq<Event>)
    ensures Receives(es) == [] <==> forall n :: 0 <= n < |es| ==> !es[n].ReceiveCalled?
  {
    if es != [] {
      NoReceives(es[1..]);
      assert Receives(es) == Of(es[0]).receives + Receives(es[1..]);
      forall n | 1 <= n < |es|
        ensures es[n] == es[1..][n - 1]
      {
      }
    }
  }

  /** Handles whose delete call succeeded, in order: the acknowledged messages. */
  function Acks(es: seq<Event>): seq<string> { Summarize(es).acks }

  /** Handles of all delete attempts, successful or not. */
  function DeleteAttempts(es: seq<Event>): seq<string> { Summarize(es).deletes }

  /** Message bodies written to the log by the consumer, in order. */
  function LoggedBodies(es: seq<Event>): seq<Option<string>> { Summarize(es).bodies }

  /** Durations of all sleeps, in order. */
  function Sleeps(es: seq<Event>): seq<int> { Summarize(es).sleeps }

  /** Error lines written by the consumer. */
  function PollErrors(es: seq<Event>): seq<LogLine> { Summarize(es).errors }
}

=== FILE: json.dfy ===
/** Decoded JSON values, as the web framework hands them to the order handler. */
module Json {

  /** A decoded JSON document. Numbers are integers in this model. */
  datatype Value =
    | JNull
    | JBool(b: bool)
    | JNum(n: int)
    | JStr(s: string)
    | JArr(items: seq<Value>)
    | JObj(fields: map<string, Value>)

  /** Python truthiness of the decoded value, which decides the `or` chain
      that picks the request payload: null, false, 0 and empty containers are false. */
  predicate Truthy(v: Value): (t: bool)
    ensures !t <==> v in {JNull, JBool(false), JNum(0), JStr(""), JArr([]), JObj(map[])}
  {
    match v
    case JNull => false
    case JBool(b) => b
    case JNum(n) => n != 0
    case JStr(s) => |s| > 0
    case JArr(items) => |items| > 0
    case JObj(fields) => |fields| > 0
  }
}

=== FILE: orders.dfy ===
/** The order record, its JSON shape, and the in-memory order store (`ORDERS`). */
module Orders {
  import opened Json
  import opened Wrappers

  /** One accepted order. `customer` and `notes` are whatever JSON value the
      request carried (or the default); `id` and `createdAt` come from the
      id generator and the clock. */
  datatype Order = Order(id: string, customer: Value, notes: Value, createdAt: string)

  /** How many orders a listing returns at most. */
  const ListLimit: nat := 20

  /** The keys of an order's JSON object, and no others. */
  const OrderKeys: set<string> := {"id", "customer", "notes", "createdAt"}

  /** The JSON object the handler returns and publishes for an order. */
  function ToJson(o: Order): (j: Value)
    ensures j.JObj? && j.fields.Keys == OrderKeys
  {
    JObj(map["id" := JStr(o.id), "customer" := o.customer, "notes" := o.notes,
             "createdAt" := JStr(o.createdAt)])
  }

  /** Reads an order back from its JSON object; `None` for anything that is
      not exactly the four-key shape with string `id` and `createdAt`. */
  function FromJson(j: Value): (r: Option<Order>)
  {
    match j
    case JObj(f) =>
      if f.Keys == OrderKeys && f["id"].JStr? && f["createdAt"].JStr? then
        Some(Order(f["id"].s, f["customer"], f["notes"], f["createdAt"].s))
      else
        None
    case _ => None
  }

  /** Encoding an order and reading it back gives the same order. */
  lemma RoundTrip(o: Order)
    ensures FromJson(ToJson(o)) == Some(o)
  {
  }

  /** Conversely, anything that reads back as an order is that order's encoding. */
  lemma FromJsonOnlyEncodings(j: Value, o: Order)
    requires FromJson(j) == Some(o)
    ensures ToJson(o) == j
  {
    var f := j.fields;
    var g := ToJson(o).fields;
    assert g.Keys == f.Keys;
    forall k | k in f
      ensures g[k] == f[k]
    {
      assert k == "id" || k == "customer" || k == "notes" || k == "createdAt";
    }
  }

  /** Storing a new order: it goes to the front, and every older order keeps
      its contents and relative order, shifted by one. */
  function Insert(store: seq<Order>, o: Order): (r: seq<Order>)
    ensures |r| == |store| + 1
    ensures r[0] == o
    ensures forall i :: 0 <= i < |store| ==> r[i + 1] == store[i]
  {
    [o] + store
  }

  function Min(a: int, b: int): int {
    if a <= b then a else b
  }

  /** The orders a listing returns: the first `ListLimit` of the store
      (most recent first), without changing the store. */
  function ListOrders(store: seq<Order>): (r: seq<Order>)
    ensures |r| == Min(|store|, ListLimit)
    ensures forall i :: 0 <= i < |r| ==> r[i] == store[i]
  {
    if |store| <= ListLimit then store else store[..ListLimit]
  }

  /** A listing right after an insert shows the new order first, followed by
      what the previous listing showed, minus its last entry once the cap is reached. */
  lemma ListAfterInsert(store: seq<Order>, o: Order)
    ensures ListOrders(Insert(store, o)) == [o] + ListOrders(store)[..Min(|store|, ListLimit - 1)]
  {
    var lhs := ListOrders(Insert(store, o));
    var rhs := [o] + ListOrders(store)[..Min(|store|, ListLimit - 1)];
    assert |lhs| == |rhs|;
    forall i | 0 <= i < |lhs|
      ensures lhs[i] == rhs[i]
    {
      if i > 0 {
        assert lhs[i] == store[i - 1];
      }
    }
  }

  /** No two stored orders share an id. */
  ghost predicate DistinctIds(store: seq<Order>) {
    forall i, j :: 0 <= i < j < |store| ==> store[i].id != store[j].id
  }

  ghost predicate HasId(store: seq<Order>, id: string) {
    exists i :: 0 <= i < |store| && store[i].id == id
  }

  /** Ids stay distinct as long as the generator hands out an unused id. */
  lemma InsertKeepsIdsDistinct(store: seq<Order>, o: Order)
    requires DistinctIds(store)
    requires !HasId(store, o.id)
    ensures DistinctIds(Insert(store, o))
  {
    var r := Insert(store, o);
    forall i, j | 0 <= i < j < |r|
      ensures r[i].id != r[j].id
    {
      if i == 0 {
        assert r[j] == store[j - 1];
      } else {
        assert r[i] == store[i - 1] && r[j] == store[j - 1];
      }
    }
  }
}

=== FILE: poller.dfy ===
/** The consume half of the queue dispatcher (`poll_sqs`): an endless loop
    that receives a batch, logs and deletes each message in order, and on any
    error abandons the rest of the batch, backs off and goes round again.

    The queue service is an oracle: each loop iteration is driven by a `Tick`
    saying what the receive call returned and which delete calls raise. */
module Poller {
  import opened Wrappers
  import opened Config
  import opened Events

  /** Receive parameters fixed by the consumer. */
  const MaxMessages: nat := 10
  const VisibilityTimeout: nat := 30
  /** Back-off after any error in an iteration. */
  const BackoffSeconds: nat := 5

  /** A received message; either key may be missing from the service's answer. */
  datatype Message = Message(body: Option<string>, receiptHandle: Option<string>)

  /** A successful receive answer; `messages` is `None` when it has no `Messages` key. */
  datatype Response = Response(messages: Option<seq<Message>>)

  datatype ReceiveOutcome = ReceiveFailed | Received(response: Response)

  /** What the queue does during one iteration: the receive answer, and the
      batch positions whose delete call raises. */
  datatype Tick = Tick(receive: ReceiveOutcome, failingDeletes: set<nat>)

  /** Where the consumer is: not started (no thread), inside its endless
      loop, or returned at once because the queue is disabled. */
  datatype PollerState = NotStarted | Polling | Returned

  datatype PollRun = PollRun(state: PollerState, events: seq<Event>)

  /** The batch of a response, empty when the `Messages` key is absent. */
  function Batch(resp: Response): seq<Message> {
    resp.messages.GetOr([])
  }

  /** Message `j` of the batch can be acknowledged: it has a receipt handle
      and its delete call does not raise. */
  predicate Clean(msgs: seq<Message>, failing: set<nat>, j: nat)
    requires j < |msgs|
  {
    msgs[j].receiptHandle.Some? && j !in failing
  }

  /** The position, from `i` on, where processing of the batch stops: the
      first message that is not clean, or the end of the batch. */
  function StopIndex(msgs: seq<Message>, failing: set<nat>, i: nat): (k: nat)
    requires i <= |msgs|
    ensures i <= k <= |msgs|
    ensures forall j :: i <= j < k ==> Clean(msgs, failing, j)
    ensures k < |msgs| ==> !Clean(msgs, failing, k)
    decreases |msgs| - i
  {
    if i == |msgs| || !Clean(msgs, failing, i) then i
    else StopIndex(msgs, failing, i + 1)
  }

  /** The error path of an iteration: log the exception, then sleep. */
  function Backoff(): seq<Event> {
    [Log(PollError), Slept(BackoffSeconds)]
  }

  /** The back-off is one error line and one sleep, and touches no queue. */
  lemma BackoffEffects()
    ensures Summarize(Backoff()) == Nothing.(sleeps := [BackoffSeconds], errors := [PollError])
  {
    assert Backoff() == [Log(PollError)] + [Slept(BackoffSeconds)];
    SummarizeAppend([Log(PollError)], [Slept(BackoffSeconds)]);
    SummarizeOne(Log(PollError));
    SummarizeOne(Slept(BackoffSeconds));
  }

  /** The effects of visiting message `i`: its body is logged, then, if it
      has a receipt handle, one delete call is made (failing when `i` is in
      `failing`). A missing handle raises before any delete call. */
  function Visit(queue: Option<string>, msgs: seq<Message>, failing: set<nat>, i: nat): (r: seq<Event>)
    requires i < |msgs|
    ensures 0 < |r| && r[0] == Log(ReceivedMessage(msgs[i].body))
    ensures |r| == (if msgs[i].receiptHandle.Some? then 2 else 1)
    ensures forall n :: 0 < n < |r| ==> r[n] == Deleted(queue, msgs[i].receiptHandle.value, i !in failing)
  {
    var logged := Log(ReceivedMessage(msgs[i].body));
    match msgs[i].receiptHandle
    case None => [logged]
    case Some(h) => [logged, Deleted(queue, h, i !in failing)]
  }

  /** What one visit contributes: the body, and the handle as a delete
      attempt, acknowledged when the message is clean. */
  lemma {:induction false} VisitEffects(queue: Option<string>, msgs: seq<Message>, failing: set<nat>, i: nat)
    requires i < |msgs|
    ensures Summarize(Visit(queue, msgs, failing, i)) ==
              Nothing.(bodies := [msgs[i].body],
                       deletes := if msgs[i].receiptHandle.Some? then [msgs[i].receiptHandle.value] else [],
                       acks := if Clean(msgs, failing, i) then [msgs[i].receiptHandle.value] else [])
  {
    var logged := Log(ReceivedMessage(msgs[i].body));
    SummarizeOne(logged);
    match msgs[i].receiptHandle
    case None =>
    case Some(h) =>
      var d := Deleted(queue, h, i !in failing);
      assert Visit(queue, msgs, failing, i) == [logged] + [d];
      SummarizeAppend([logged], [d]);
      SummarizeOne(d);
  }

  /** Effects of the `for` loop over the batch from position `i`: visit each
      message in turn; the first exception ends the batch and runs the back-off. */
  function ProcessBatch(queue: Option<string>, msgs: seq<Message>, failing: set<nat>, i: nat): (r: seq<Event>)
    requires i <= |msgs|
    ensures r == [] <==> i == |msgs|
    ensures i < |msgs| ==> r[0] == Log(ReceivedMessage(msgs[i].body))
    decreases |msgs| - i
  {
    if i == |msgs| then []
    else if Clean(msgs, failing, i) then Visit(queue, msgs, failing, i) + ProcessBatch(queue, msgs, failing, i + 1)
    else Visit(queue, msgs, failing, i) + Backoff()
  }

  /** The visits of messages `i` up to but excluding `n`, one after another. */
  function Visits(queue: Option<string>, msgs: seq<Message>, failing: set<nat>, i: nat, n: nat): seq<Event>
    requires i <= n <= |msgs|
    decreases n - i
  {
    if i == n then [] else Visit(queue, msgs, failing, i) + Visits(queue, msgs, failing, i + 1, n)
  }

  /** The order of events in a batch: each message reached is visited in
      turn (body logged, then its delete), and the back-off comes last,
      exactly when the batch stopped before its end. */
  lemma {:induction false} BatchShape(queue: Option<string>, msgs: seq<Message>, failing: set<nat>, i: nat)
    requires i <= |msgs|
    ensures ProcessBatch(queue, msgs, failing, i) ==
              Visits(queue, msgs, failing, i, Reached(msgs, failing, i))
              + (if StopIndex(msgs, failing, i) < |msgs| then Backoff() else [])
    decreases |msgs| - i
  {
    if i < |msgs| {
      var v := Visit(queue, msgs, failing, i);
      var n := Reached(msgs, failing, i);
      var tail := if StopIndex(msgs, failing, i) < |msgs| then Backoff() else [];
      if Clean(msgs, failing, i) {
        var later := Visits(queue, msgs, failing, i + 1, n);
        assert ProcessBatch(queue, msgs, failing, i + 1) == later + tail by {
          BatchShape(queue, msgs, failing, i + 1);
          assert StopIndex(msgs, failing, i) == StopIndex(msgs, failing, i + 1);
          assert n == Reached(msgs, failing, i + 1);
        }
        assert Visits(queue, msgs, failing, i, n) == v + later;
        assert v + (later + tail) == (v + later) + tail;
      } else {
        assert StopIndex(msgs, failing, i) == i;
        assert n == i + 1;
        assert Visits(queue, msgs, failing, i, i + 1) == v + [];
      }
    }
  }


  /** Whether an iteration hits an exception. */
  predicate Fails(tick: Tick) {
    match tick.receive
    case ReceiveFailed => true
    case Received(resp) => StopIndex(Batch(resp), tick.failingDeletes, 0) < |Batch(resp)|
  }

  /** One pass of the `while True` body, which always ends back at the loop head. */
  function Iteration(cfg: Config, tick: Tick): (r: seq<Event>)
    ensures |r| > 0 && r[0] == ReceiveCalled(cfg.queueUrl, MaxMessages, cfg.pollSeconds, VisibilityTimeout, tick.receive.Received?)
  {
    var ok := tick.receive.Received?;
    var call := ReceiveCalled(cfg.queueUrl, MaxMessages, cfg.pollSeconds, VisibilityTimeout, ok);
    match tick.receive
    case ReceiveFailed => [call] + Backoff()
    case Received(resp) => [call] + ProcessBatch(cfg.queueUrl, Batch(resp), tick.failingDeletes, 0)
  }

  /** The loop run for as many iterations as there are ticks. */
  function Loop(cfg: Config, ticks: seq<Tick>): (r: seq<Event>)
    ensures |r| >= |ticks|
    ensures ticks != [] ==> r[0] == ReceiveCalled(cfg.queueUrl, MaxMessages, cfg.pollSeconds, VisibilityTimeout, ticks[0].receive.Received?)
  {
    if ticks == [] then [] else Iteration(cfg, ticks[0]) + Loop(cfg, ticks[1..])
  }

  /** `poll_sqs`, observed after `|ticks|` iterations: it returns at once when
      the queue path is off, and otherwise announces itself and stays in the loop. */
  function Poll(cfg: Config, ticks: seq<Tick>): (r: PollRun)
    ensures !Active(cfg) ==> r == PollRun(Returned, [])
    ensures Active(cfg) ==> r.state == Polling && |r.events| > 0 && r.events[0] == Log(PollerStarted)
  {
    if !Active(cfg) then PollRun(Returned, [])
    else PollRun(Polling, [Log(PollerStarted)] + Loop(cfg, ticks))
  }

  /** Module start-up: the consumer thread is started, running `poll_sqs`, exactly when `SQS_ENABLED`. */
  function Boot(cfg: Config, ticks: seq<Tick>): (r: PollRun)
    ensures !cfg.enabled ==> r == PollRun(NotStarted, [])
    ensures cfg.enabled ==> r == Poll(cfg, ticks)
    ensures Receives(r.events) != [] ==> Active(cfg)
  {
    if cfg.enabled then Poll(cfg, ticks) else PollRun(NotStarted, [])
  }

  /** The receipt handles the messages carry, in order. */
  function Handles(ms: seq<Message>): seq<string> {
    if ms == [] then []
    else (if ms[0].receiptHandle.Some? then [ms[0].receiptHandle.value] else []) + Handles(ms[1..])
  }

  /** The effects of a batch from position `i` on: those of visiting message
      `i`, then either the rest of the batch or the back-off. */
  lemma {:induction false} BatchStep(queue: Option<string>, msgs: seq<Message>, failing: set<nat>, i: nat)
    requires i < |msgs|
    ensures Summarize(ProcessBatch(queue, msgs, failing, i)) ==
              Plus(Summarize(Visit(queue, msgs, failing, i)),
                   if Clean(msgs, failing, i) then Summarize(ProcessBatch(queue, msgs, failing, i + 1)) else Summarize(Backoff()))
  {
    var v := Visit(queue, msgs, failing, i);
    if Clean(msgs, failing, i) {
      SummarizeAppend(v, ProcessBatch(queue, msgs, failing, i + 1));
    } else {
      SummarizeAppend(v, Backoff());
    }
  }

  /** The acknowledged handles of a batch are the handles of the messages
      before the stop position, in batch order. */
  lemma {:induction false} BatchAcks(queue: Option<string>, msgs: seq<Message>, failing: set<nat>, i: nat)
    requires i <= |msgs|
    ensures Acks(ProcessBatch(queue, msgs, failing, i)) == Handles(msgs[i..StopIndex(msgs, failing, i)])
    decreases |msgs| - i
  {
    if i < |msgs| {
      var v := Visit(queue, msgs, failing, i);
      VisitEffects(queue, msgs, failing, i);
      var k := StopIndex(msgs, failing, i);
      if Clean(msgs, failing, i) {
        var rest := ProcessBatch(queue, msgs, failing, i + 1);
        SummarizeAppend(v, rest);
        BatchAcks(queue, msgs, failing, i + 1);
        assert msgs[i..k][0] == msgs[i];
        assert msgs[i..k][1..] == msgs[i + 1..k];
      } else {
        BackoffEffects();
        SummarizeAppend(v, Backoff());
        assert msgs[i..k] == [];
      }
    }
  }

  /** The bodies of the messages, in order. */
  function Bodies(ms: seq<Message>): seq<Option<string>> {
    if ms == [] then [] else [ms[0].body] + Bodies(ms[1..])
  }

  /** How far into the batch processing gets: up to and including the
      message at the stop position, if there is one. */
  function Reached(msgs: seq<Message>, failing: set<nat>, i: nat): (n: nat)
    requires i <= |msgs|
    ensures i <= n <= |msgs|
  {
    var k := StopIndex(msgs, failing, i);
    if k < |msgs| then k + 1 else k
  }

  /** Every message up to and including the one that stops the batch has its
      body logged, in batch order; none after it is looked at. */
  lemma {:induction false} BatchLogs(queue: Option<string>, msgs: seq<Message>, failing: set<nat>, i: nat)
    requires i <= |msgs|
    ensures LoggedBodies(ProcessBatch(queue, msgs, failing, i)) == Bodies(msgs[i..Reached(msgs, failing, i)])
    decreases |msgs| - i
  {
    if i < |msgs| {
      var v := Visit(queue, msgs, failing, i);
      VisitEffects(queue, msgs, failing, i);
      var n := Reached(msgs, failing, i);
      assert msgs[i..n][0] == msgs[i];
      if Clean(msgs, failing, i) {
        var rest := ProcessBatch(queue, msgs, failing, i + 1);
        SummarizeAppend(v, rest);
        BatchLogs(queue, msgs, failing, i + 1);
        assert n == Reached(msgs, failing, i + 1);
        assert msgs[i..n][1..] == msgs[i + 1..n];
      } else {
        BackoffEffects();
        SummarizeAppend(v, Backoff());
        assert n == i + 1;
        assert msgs[i..n][1..] == [];
      }
    }
  }

  /** A delete is attempted for every message processing reaches that has
      a receipt handle, in batch order, and for no other: the acknowledged
      ones and, when the batch stops on a failing delete, that one. */
  lemma {:induction false} BatchDeleteAttempts(queue: Option<string>, msgs: seq<Message>, failing: set<nat>, i: nat)
    requires i <= |msgs|
    ensures DeleteAttempts(ProcessBatch(queue, msgs, failing, i)) == Handles(msgs[i..Reached(msgs, failing, i)])
    decreases |msgs| - i
  {
    if i < |msgs| {
      var v := Visit(queue, msgs, failing, i);
      VisitEffects(queue, msgs, failing, i);
      var n := Reached(msgs, failing, i);
      assert msgs[i..n][0] == msgs[i];
      if Clean(msgs, failing, i) {
        var rest := ProcessBatch(queue, msgs, failing, i + 1);
        SummarizeAppend(v, rest);
        BatchDeleteAttempts(queue, msgs, failing, i + 1);
        assert n == Reached(msgs, failing, i + 1);
        assert msgs[i..n][1..] == msgs[i + 1..n];
      } else {
        BackoffEffects();
        SummarizeAppend(v, Backoff());
        assert n == i + 1;
        assert msgs[i..n][1..] == [];
      }
    }
  }

  /** A batch ends in exactly one logged error and one back-off when it stops
      early, and in neither when every message was acknowledged. */
  lemma {:induction false} BatchBackoff(queue: Option<string>, msgs: seq<Message>, failing: set<nat>, i: nat)
    requires i <= |msgs|
    ensures StopIndex(msgs, failing, i) < |msgs| ==>
              Sleeps(ProcessBatch(queue, msgs, failing, i)) == [BackoffSeconds] && PollErrors(ProcessBatch(queue, msgs, failing, i)) == [PollError]
    ensures StopIndex(msgs, failing, i) == |msgs| ==>
              Sleeps(ProcessBatch(queue, msgs, failing, i)) == [] && PollErrors(ProcessBatch(queue, msgs, failing, i)) == []
    decreases |msgs| - i
  {
    var r := ProcessBatch(queue, msgs, failing, i);
    var k := StopIndex(msgs, failing, i);
    if i < |msgs| {
      if Clean(msgs, failing, i) {
        assert && (k < |msgs| ==> Sleeps(r) == [BackoffSeconds] && PollErrors(r) == [PollError])
               && (k == |msgs| ==> Sleeps(r) == [] && PollErrors(r) == []) by {
          CleanStepQuiet(queue, msgs, failing, i);
          BatchBackoff(queue, msgs, failing, i + 1);
        }
      } else {
        assert k == i && Sleeps(r) == [BackoffSeconds] && PollErrors(r) == [PollError] by {
          StopStepBacksOff(queue, msgs, failing, i);
        }
      }
    }
  }

  /** Processing a batch neither receives nor publishes. */
  lemma {:induction false} BatchQuiet(queue: Option<string>, msgs: seq<Message>, failing: set<nat>, i: nat)
    requires i <= |msgs|
    ensures Receives(ProcessBatch(queue, msgs, failing, i)) == []
    ensures Sends(ProcessBatch(queue, msgs, failing, i)) == []
    decreases |msgs| - i
  {
    var r := ProcessBatch(queue, msgs, failing, i);
    if i < |msgs| {
      if Clean(msgs, failing, i) {
        assert Receives(r) == [] && Sends(r) == [] by {
          CleanStepQuiet(queue, msgs, failing, i);
          BatchQuiet(queue, msgs, failing, i + 1);
        }
      } else {
        assert Receives(r) == [] && Sends(r) == [] by {
          StopStepBacksOff(queue, msgs, failing, i);
        }
      }
    }
  }

  /** Visiting a clean message adds no receive, publish, sleep or error line
      to what the rest of the batch does. */
  lemma {:induction false} CleanStepQuiet(queue: Option<string>, msgs: seq<Message>, failing: set<nat>, i: nat)
    requires i < |msgs| && Clean(msgs, failing, i)
    ensures StopIndex(msgs, failing, i) == StopIndex(msgs, failing, i + 1)
    ensures Sleeps(ProcessBatch(queue, msgs, failing, i)) == Sleeps(ProcessBatch(queue, msgs, failing, i + 1))
    ensures PollErrors(ProcessBatch(queue, msgs, failing, i)) == PollErrors(ProcessBatch(queue, msgs, failing, i + 1))
    ensures Receives(ProcessBatch(queue, msgs, failing, i)) == Receives(ProcessBatch(queue, msgs, failing, i + 1))
    ensures Sends(ProcessBatch(queue, msgs, failing, i)) == Sends(ProcessBatch(queue, msgs, failing, i + 1))
  {
    var s := Summarize(ProcessBatch(queue, msgs, failing, i));
    var sv := Summarize(Visit(queue, msgs, failing, i));
    var sr := Summarize(ProcessBatch(queue, msgs, failing, i + 1));
    BatchStep(queue, msgs, failing, i);
    assert s == Plus(sv, sr);
    VisitEffects(queue, msgs, failing, i);
    assert sv.sleeps == [] && sv.errors == [] && sv.receives == [] && sv.sends == [];
  }

  /** A message that is not clean ends the batch: its position is the stop
      position, and the batch shows one back-off and no receive or publish. */
  lemma {:induction false} StopStepBacksOff(queue: Option<string>, msgs: seq<Message>, failing: set<nat>, i: nat)
    requires i < |msgs| && !Clean(msgs, failing, i)
    ensures StopIndex(msgs, failing, i) == i
    ensures Sleeps(ProcessBatch(queue, msgs, failing, i)) == [BackoffSeconds]
    ensures PollErrors(ProcessBatch(queue, msgs, failing, i)) == [PollError]
    ensures Receives(ProcessBatch(queue, msgs, failing, i)) == []
    ensures Sends(ProcessBatch(queue, msgs, failing, i)) == []
  {
    var s := Summarize(ProcessBatch(queue, msgs, failing, i));
    var sv := Summarize(Visit(queue, msgs, failing, i));
    var sb := Summarize(Backoff());
    BatchStep(queue, msgs, failing, i);
    assert s == Plus(sv, sb);
    VisitEffects(queue, msgs, failing, i);
    BackoffEffects();
    assert sv.sleeps == [] && sv.errors == [] && sv.receives == [] && sv.sends == [];
  }

  /** One iteration makes exactly one receive call, first, with the fixed
      batch size and visibility timeout and the configured wait; it backs off
      once exactly when it hits an exception, and it never publishes. */
  lemma {:induction false} IterationSpec(cfg: Config, tick: Tick)
    ensures Receives(Iteration(cfg, tick)) == [tick.receive.Received?]
    ensures Sleeps(Iteration(cfg, tick)) == (if Fails(tick) then [BackoffSeconds] else [])
    ensures PollErrors(Iteration(cfg, tick)) == (if Fails(tick) then [PollError] else [])
    ensures Sends(Iteration(cfg, tick)) == []
    ensures tick.receive.ReceiveFailed? ==>
              && Acks(Iteration(cfg, tick)) == [] && DeleteAttempts(Iteration(cfg, tick)) == [] && LoggedBodies(Iteration(cfg, tick)) == []
              && |Iteration(cfg, tick)| == 3 && Iteration(cfg, tick)[1] == Log(PollError) && Iteration(cfg, tick)[2] == Slept(BackoffSeconds)
    ensures |Iteration(cfg, tick)| > 0
    ensures Iteration(cfg, tick)[0] == ReceiveCalled(cfg.queueUrl, MaxMessages, cfg.pollSeconds, VisibilityTimeout, tick.receive.Received?)
    ensures forall n :: 0 < n < |Iteration(cfg, tick)| ==> !Iteration(cfg, tick)[n].ReceiveCalled?
  {
    var call := ReceiveCalled(cfg.queueUrl, MaxMessages, cfg.pollSeconds, VisibilityTimeout, tick.receive.Received?);
    var rest := match tick.receive
      case ReceiveFailed => Backoff()
      case Received(resp) => ProcessBatch(cfg.queueUrl, Batch(resp), tick.failingDeletes, 0);
    assert Iteration(cfg, tick) == [call] + rest;
    SummarizeAppend([call], rest);
    match tick.receive {
      case ReceiveFailed =>
        BackoffEffects();
      case Received(resp) =>
        BatchBackoff(cfg.queueUrl, Batch(resp), tick.failingDeletes, 0);
        BatchQuiet(cfg.queueUrl, Batch(resp), tick.failingDeletes, 0);
    }
    NoReceives(rest);
    forall n | 0 < n < |Iteration(cfg, tick)|
      ensures !Iteration(cfg, tick)[n].ReceiveCalled?
    {
      assert Iteration(cfg, tick)[n] == rest[n - 1];
    }
  }

  /** After a successful receive, the iteration acknowledges the messages
      before the stop position, in batch order, and logs the body of each
      message it reached. */
  lemma {:induction false} IterationAcks(cfg: Config, tick: Tick)
    requires tick.receive.Received?
    ensures var msgs := Batch(tick.receive.response);
            Acks(Iteration(cfg, tick)) == Handles(msgs[..StopIndex(msgs, tick.failingDeletes, 0)])
    ensures var msgs := Batch(tick.receive.response);
            DeleteAttempts(Iteration(cfg, tick)) == Handles(msgs[..Reached(msgs, tick.failingDeletes, 0)])
    ensures var msgs := Batch(tick.receive.response);
            LoggedBodies(Iteration(cfg, tick)) == Bodies(msgs[..Reached(msgs, tick.failingDeletes, 0)])
  {
    var msgs := Batch(tick.receive.response);
    var call := ReceiveCalled(cfg.queueUrl, MaxMessages, cfg.pollSeconds, VisibilityTimeout, true);
    var rest := ProcessBatch(cfg.queueUrl, msgs, tick.failingDeletes, 0);
    assert Iteration(cfg, tick) == [call] + rest;
    SummarizeAppend([call], rest);
    SummarizeOne(call);
    BatchAcks(cfg.queueUrl, msgs, tick.failingDeletes, 0);
    BatchDeleteAttempts(cfg.queueUrl, msgs, tick.failingDeletes, 0);
    BatchLogs(cfg.queueUrl, msgs, tick.failingDeletes, 0);
    assert msgs[0..StopIndex(msgs, tick.failingDeletes, 0)] == msgs[..StopIndex(msgs, tick.failingDeletes, 0)];
    assert msgs[0..Reached(msgs, tick.failingDeletes, 0)] == msgs[..Reached(msgs, tick.failingDeletes, 0)];
  }

  /** The receive outcomes a script of ticks dictates, in order. */
  function ReceiveOutcomes(ticks: seq<Tick>): seq<bool> {
    if ticks == [] then [] else [ticks[0].receive.Received?] + ReceiveOutcomes(ticks[1..])
  }

  /** How many ticks make their iteration hit an exception. */
  function CountFailing(ticks: seq<Tick>): nat {
    if ticks == [] then 0 else (if Fails(ticks[0]) then 1 else 0) + CountFailing(ticks[1..])
  }

  /** The loop makes one receive call per tick, in tick order, whatever
      happened in earlier iterations; it backs off once per failing
      iteration, and never publishes. */
  lemma {:induction false} LoopSpec(cfg: Config, ticks: seq<Tick>)
    ensures Receives(Loop(cfg, ticks)) == ReceiveOutcomes(ticks)
    ensures |Sleeps(Loop(cfg, ticks))| == |PollErrors(Loop(cfg, ticks))| == CountFailing(ticks)
    ensures Sends(Loop(cfg, ticks)) == []
  {
    if ticks != [] {
      var first := Iteration(cfg, ticks[0]);
      var rest := Loop(cfg, ticks[1..]);
      IterationCounts(cfg, ticks[0]);
      LoopSpec(cfg, ticks[1..]);
      SummarizeAppend(first, rest);
      var s, sf, sr := Summarize(first + rest), Summarize(first), Summarize(rest);
      assert s == Plus(sf, sr);
    }
  }

  /** The part of `IterationSpec` that adds up over a run of iterations. */
  lemma {:induction false} IterationCounts(cfg: Config, tick: Tick)
    ensures Receives(Iteration(cfg, tick)) == [tick.receive.Received?]
    ensures |Sleeps(Iteration(cfg, tick))| == |PollErrors(Iteration(cfg, tick))| == (if Fails(tick) then 1 else 0)
    ensures Sends(Iteration(cfg, tick)) == []
  {
    IterationSpec(cfg, tick);
  }

  /** With the queue path live, no error ends the consumer: after any number
      of iterations, whatever the queue did, it has issued one receive per
      iteration with that iteration's outcome, and slept once per failing one
      (the receive and sleep clauses). The first clause adds only that the
      run is still in its loop, as `Poll` itself promises. */
  lemma {:induction false} NeverExits(cfg: Config, ticks: seq<Tick>)
    requires Active(cfg)
    ensures Poll(cfg, ticks).state == Polling
    ensures Receives(Poll(cfg, ticks).events) == ReceiveOutcomes(ticks)
    ensures |Receives(Poll(cfg, ticks).events)| == |ticks|
    ensures |Sleeps(Poll(cfg, ticks).events)| == CountFailing(ticks)
  {
    var started := [Log(PollerStarted)];
    var loop := Loop(cfg, ticks);
    LoopSpec(cfg, ticks);
    SummarizeAppend(started, loop);
    SummarizeOne(Log(PollerStarted));
    OutcomesLength(ticks);
  }

  lemma {:induction false} OutcomesLength(ticks: seq<Tick>)
    ensures |ReceiveOutcomes(ticks)| == |ticks|
  {
    if ticks != [] {
      OutcomesLength(ticks[1..]);
    }
  }

  /** When every message carries a receipt handle, the handles list them all, in order. */
  lemma {:induction false} HandlesAllPresent(ms: seq<Message>)
    requires forall j :: 0 <= j < |ms| ==> ms[j].receiptHandle.Some?
    ensures |Handles(ms)| == |ms|
    ensures forall j :: 0 <= j < |ms| ==> ms[j].receiptHandle == Some(Handles(ms)[j])
  {
    if ms != [] {
      HandlesAllPresent(ms[1..]);
      assert Handles(ms) == [ms[0].receiptHandle.value] + Handles(ms[1..]);
      forall j | 0 < j < |ms|
        ensures ms[j].receiptHandle == Some(Handles(ms)[j])
      {
        assert ms[1..][j - 1] == ms[j];
      }
    }
  }

  /** A batch of messages that all carry a receipt handle and delete cleanly
      is acknowledged in full, in order, with no back-off. */
  lemma {:induction false} CleanBatchFullyAcked(cfg: Config, msgs: seq<Message>)
    requires forall j :: 0 <= j < |msgs| ==> msgs[j].receiptHandle.Some?
    ensures var es := Iteration(cfg, Tick(Received(Response(Some(msgs))), {}));
            Acks(es) == Handles(msgs) && |Acks(es)| == |msgs| && Sleeps(es) == [] && Receives(es) == [true]
  {
    var tick := Tick(Received(Response(Some(msgs))), {});
    var k := StopIndex(msgs, {}, 0);
    assert k == |msgs|;
    assert msgs[..k] == msgs;
    IterationAcks(cfg, tick);
    IterationSpec(cfg, tick);
    HandlesAllPresent(msgs);
  }

  /** An iteration whose receive fails acknowledges nothing and backs off once. */
  lemma {:induction false} FailedReceiveBacksOff(cfg: Config, tick: Tick)
    requires tick.receive.ReceiveFailed?
    ensures var es := Iteration(cfg, tick);
            && Receives(es) == [false] && Sleeps(es) == [BackoffSeconds] && Acks(es) == [] && DeleteAttempts(es) == []
            && es[1..] == [Log(PollError), Slept(BackoffSeconds)]
  {
    IterationSpec(cfg, tick);
  }

  /** Every delete call of a batch is made against the queue it was given. */
  lemma {:induction false} BatchTargetsQueue(queue: Option<string>, msgs: seq<Message>, failing: set<nat>, i: nat)
    requires i <= |msgs|
    ensures Targets(ProcessBatch(queue, msgs, failing, i), queue)
    decreases |msgs| - i
  {
    if i < |msgs| {
      var v := Visit(queue, msgs, failing, i);
      assert Targets(v, queue);
      if Clean(msgs, failing, i) {
        BatchTargetsQueue(queue, msgs, failing, i + 1);
        TargetsAppend(v, ProcessBatch(queue, msgs, failing, i + 1), queue);
      } else {
        assert Targets(Backoff(), queue);
        TargetsAppend(v, Backoff(), queue);
      }
    }
  }

  /** The receive and every delete of an iteration go to the configured queue URL. */
  lemma {:induction false} IterationTargetsQueue(cfg: Config, tick: Tick)
    ensures Targets(Iteration(cfg, tick), cfg.queueUrl)
  {
    var call := ReceiveCalled(cfg.queueUrl, MaxMessages, cfg.pollSeconds, VisibilityTimeout, tick.receive.Received?);
    assert Targets([call], cfg.queueUrl);
    match tick.receive {
      case ReceiveFailed =>
        assert Targets(Backoff(), cfg.queueUrl);
        TargetsAppend([call], Backoff(), cfg.queueUrl);
      case Received(resp) =>
        BatchTargetsQueue(cfg.queueUrl, Batch(resp), tick.failingDeletes, 0);
        TargetsAppend([call], ProcessBatch(cfg.queueUrl, Batch(resp), tick.failingDeletes, 0), cfg.queueUrl);
    }
  }

  /** However long it runs, the consumer talks to no queue but the configured one. */
  lemma {:induction false} PollTargetsQueue(cfg: Config, ticks: seq<Tick>)
    ensures Targets(Poll(cfg, ticks).events, cfg.queueUrl)
  {
    if Active(cfg) {
      LoopTargetsQueue(cfg, ticks);
      assert Targets([Log(PollerStarted)], cfg.queueUrl);
      TargetsAppend([Log(PollerStarted)], Loop(cfg, ticks), cfg.queueUrl);
    }
  }

  /** Every iteration of a run targets the configured queue URL. */
  lemma {:induction false} LoopTargetsQueue(cfg: Config, ticks: seq<Tick>)
    ensures Targets(Loop(cfg, ticks), cfg.queueUrl)
  {
    if ticks != [] {
      IterationTargetsQueue(cfg, ticks[0]);
      LoopTargetsQueue(cfg, ticks[1..]);
      TargetsAppend(Iteration(cfg, ticks[0]), Loop(cfg, ticks[1..]), cfg.queueUrl);
    }
  }

  /** Two iterations run back to back. */
  lemma {:induction false} LoopOfTwo(cfg: Config, a: Tick, b: Tick)
    ensures Loop(cfg, [a, b]) == Iteration(cfg, a) + Iteration(cfg, b)
  {
    assert [a, b][1..] == [b];
    assert [b][1..] == [];
    assert Loop(cfg, [b]) == Iteration(cfg, b) + Loop(cfg, []);
  }

  /** Two iterations observed from start-up: the announcement adds nothing
      to the summary, so it is that of the two iterations. */
  lemma {:induction false} PollOfTwo(cfg: Config, a: Tick, b: Tick)
    requires Active(cfg)
    ensures Poll(cfg, [a, b]).state == Polling
    ensures Summarize(Poll(cfg, [a, b]).events) == Plus(Summarize(Iteration(cfg, a)), Summarize(Iteration(cfg, b)))
  {
    var first := Iteration(cfg, a);
    var second := Iteration(cfg, b);
    LoopOfTwo(cfg, a, b);
    assert Poll(cfg, [a, b]).events == [Log(PollerStarted)] + (first + second);
    QuietPrefix(Log(PollerStarted), first + second);
    SummarizeAppend(first, second);
  }

  /** A failed receive is followed by a back-off and a fresh receive; when
      that one succeeds with a clean batch, the whole batch is acknowledged. */
  lemma {:induction false} RecoversAfterReceiveError(cfg: Config, msgs: seq<Message>)
    requires Active(cfg)
    requires forall j :: 0 <= j < |msgs| ==> msgs[j].receiptHandle.Some?
    ensures var run := Poll(cfg, [Tick(ReceiveFailed, {}), Tick(Received(Response(Some(msgs))), {})]);
            && run.state == Polling
            && Receives(run.events) == [false, true]
            && Sleeps(run.events) == [BackoffSeconds]
            && Acks(run.events) == Handles(msgs)
  {
    var bad := Tick(ReceiveFailed, {});
    var good := Tick(Received(Response(Some(msgs))), {});
    PollOfTwo(cfg, bad, good);
    var s := Summarize(Poll(cfg, [bad, good]).events);
    var s1 := Summarize(Iteration(cfg, bad));
    var s2 := Summarize(Iteration(cfg, good));
    assert s == Plus(s1, s2);
    FailedReceiveBacksOff(cfg, bad);
    assert s1.receives == [false] && s1.sleeps == [BackoffSeconds] && s1.acks == [];
    CleanBatchFullyAcked(cfg, msgs);
    assert s2.receives == [true] && s2.sleeps == [] && s2.acks == Handles(msgs);
  }
}

=== FILE: publisher.dfy ===
/** The publish half of the queue dispatcher (`send_to_sqs`): one
    best-effort send per created order, failures logged and swallowed. */
module Publisher {
  import opened Wrappers
  import opened Config
  import opened Events
  import Orders

  /** Effects of publishing `order`; `sendOk` is the queue service's answer
      to the one send attempt (false when the call raises). The function has
      no failure result: nothing the queue does reaches the caller. */
  function SendToSqs(cfg: Config, order: Orders.Order, sendOk: bool): (r: seq<Event>)
    ensures r == [] <==> !Active(cfg)
    ensures Active(cfg) ==> Sends(r) == [Orders.ToJson(order)]
    ensures Active(cfg) ==> (Log(SendFailed) in r <==> !sendOk)
    ensures forall e :: e in r ==> e.Sent? || e == Log(SendFailed)
    ensures Active(cfg) ==> r[0] == Sent(cfg.queueUrl, Orders.ToJson(order), sendOk) && |r| == (if sendOk then 1 else 2)
    ensures Targets(r, cfg.queueUrl)
  {
    if !Active(cfg) then []
    else
      var attempt := Sent(cfg.queueUrl, Orders.ToJson(order), sendOk);
      var failure := if sendOk then [] else [Log(SendFailed)];
      assert Sends([attempt] + failure) == [Orders.ToJson(order)] by {
        SummarizeAppend([attempt], failure);
        SummarizeOne(attempt);
        if !sendOk {
          SummarizeOne(Log(SendFailed));
        }
      }
      [attempt] + failure
  }

  /** Every message body the publisher sends reads back as the published order. */
  lemma PublishedBodyIsOrder(cfg: Config, order: Orders.Order, sendOk: bool)
    ensures forall b :: b in Sends(SendToSqs(cfg, order, sendOk)) ==> Orders.FromJson(b) == Some(order)
  {
    Orders.RoundTrip(order);
  }
}

=== FILE: seqs.dfy ===
/** Generic facts about sequences used to describe the order store after a run. */
module Seqs {

  /** The sequence in reverse order: a store after a run holds the run's orders this way, the last one created first. */
  function Reverse<T>(s: seq<T>): (r: seq<T>)
    ensures |r| == |s|
  {
    if s == [] then [] else Reverse(s[1..]) + [s[0]]
  }

  /** Position `i` of the reversal holds position `|s| - 1 - i` of the original. */
  lemma {:induction false} ReverseAt<T>(s: seq<T>, i: nat)
    requires i < |s|
    ensures Reverse(s)[i] == s[|s| - 1 - i]
  {
    if i < |s| - 1 {
      ReverseAt(s[1..], i);
    }
  }

  /** Reversing a run that starts with at most one element moves that element to the end. */
  lemma {:induction false} ReverseConsShort<T>(a: seq<T>, b: seq<T>)
    requires |a| <= 1
    ensures Reverse(a + b) == Reverse(b) + a
  {
    if a == [] {
      assert a + b == b;
    } else {
      assert (a + b)[1..] == b;
    }
  }

  /** One step of a run on the store: a call that put `first` (at most one
      order) in front of `store`, followed by calls that put the reversal of
      `later` in front of that. */
  lemma {:induction false} FrontAfterStep<T>(store: seq<T>, first: seq<T>, later: seq<T>, mid: seq<T>, final: seq<T>)
    requires |first| <= 1
    requires mid == first + store
    requires final == Reverse(later) + mid
    ensures final == Reverse(first + later) + store
  {
    ReverseConsShort(first, later);
    assert Reverse(later) + (first + store) == (Reverse(later) + first) + store;
  }
}

=== FILE: service.dfy ===
/** The two order routes (`create_order`, `list_orders`) over the order store,
    and a run of requests against one store. */
module Service {
  import opened Wrappers
  import opened Json
  import opened Config
  import opened Events
  import Orders
  import Publisher
  import opened Seqs

  const StatusOk: nat := 200
  const StatusCreated: nat := 201
  /** What the framework answers when the handler raises. */
  const StatusServerError: nat := 500

  const DefaultCustomer: Value := JStr("anonymous")
  const DefaultNotes: Value := JStr("")

  /** An order-creation request. `json` is the body as parsed silently (`None`
      when it is not JSON), `form` the form fields (first value per key).
      `id` and `now` are what the id generator and the clock return, and
      `sendOk` is the queue's answer to the publish attempt. */
  datatype Request = Request(json: Option<Value>, form: map<string, string>, id: string, now: string, sendOk: bool)

  /** The only way creation fails: the chosen payload has no `.get`, because
      the body is truthy JSON that is not an object. */
  datatype CreateError = PayloadNotAMapping

  /** A successful creation: the new store, the stored order, the reply and
      the side effects in the order they happen. */
  datatype Created = Created(store: seq<Orders.Order>, order: Orders.Order, status: nat, body: Value, effects: seq<Event>)

  /** A body that parses as truthy JSON but is not an object: it is chosen as
      the payload and `payload.get` then raises. */
  predicate NonObjectBody(json: Option<Value>) {
    json.Some? && Truthy(json.value) && !json.value.JObj?
  }

  /** Whether `create_order` gets past payload selection for this request:
      everything except a non-object JSON body. */
  predicate Accepts(req: Request) {
    !NonObjectBody(req.json)
  }

  /** The first truthy of: parsed JSON body, form, empty mapping. */
  function SelectPayload(json: Option<Value>, form: map<string, string>): (r: Result<map<string, Value>, CreateError>)
    ensures r.Failure? <==> NonObjectBody(json)
    ensures json.Some? && Truthy(json.value) && json.value.JObj? ==> r == Success(json.value.fields)
    ensures (json.None? || !Truthy(json.value)) ==>
              r.Success? && r.value.Keys == form.Keys && forall k :: k in form ==> r.value[k] == JStr(form[k])
  {
    if json.Some? && Truthy(json.value) then
      if json.value.JObj? then Success(json.value.fields) else Failure(PayloadNotAMapping)
    else if |form| > 0 then
      Success(map k | k in form :: JStr(form[k]))
    else
      Success(map[])
  }

  /** `payload.get(key, default)`: a present value is copied through whatever
      it is, and the default comes out only for an absent key or one that
      carries that very value. */
  function Field(payload: map<string, Value>, key: string, default: Value): (v: Value)
    ensures key in payload ==> v == payload[key]
    ensures v == default <==> (key !in payload || payload[key] == default)
  {
    if key in payload then payload[key] else default
  }

  /** The order record built from a payload: present fields are copied
      through as they are, absent ones take their defaults. */
  function BuildOrder(payload: map<string, Value>, id: string, now: string): (o: Orders.Order)
    ensures o.id == id && o.createdAt == now
    ensures "customer" in payload ==> o.customer == payload["customer"]
    ensures "customer" !in payload ==> o.customer == DefaultCustomer
    ensures "notes" in payload ==> o.notes == payload["notes"]
    ensures "notes" !in payload ==> o.notes == DefaultNotes
  {
    Orders.Order(id, Field(payload, "customer", DefaultCustomer), Field(payload, "notes", DefaultNotes), now)
  }

  /** `create_order`: pick the payload, build the order, put it at the front
      of the store, then publish it; reply 201 with the order. */
  function CreateOrder(store: seq<Orders.Order>, cfg: Config, req: Request): (r: Result<Created, CreateError>)
    ensures r.Failure? <==> !Accepts(req)
    ensures r.Success? ==>
              && r.value.store == Orders.Insert(store, r.value.order)
              && r.value.order.id == req.id
              && r.value.order.createdAt == req.now
              && r.value.status == StatusCreated
              && r.value.body == Orders.ToJson(r.value.order)
    ensures r.Success? ==>
              && SelectPayload(req.json, req.form).Success?
              && r.value.order == BuildOrder(SelectPayload(req.json, req.form).value, req.id, req.now)
    ensures r.Success? ==>
              && |r.value.effects| > 0
              && r.value.effects[0] == Inserted(r.value.order)
              && (forall n :: 0 < n < |r.value.effects| ==> !r.value.effects[n].Inserted?)
              && Sends(r.value.effects) == (if Active(cfg) then [r.value.body] else [])
    ensures r.Success? ==> r.value.effects == [Inserted(r.value.order)] + Publisher.SendToSqs(cfg, r.value.order, req.sendOk)
  {
    var payload :- SelectPayload(req.json, req.form);
    var order := BuildOrder(payload, req.id, req.now);
    var published := Publisher.SendToSqs(cfg, order, req.sendOk);
    var effects := [Inserted(order)] + published;
    SummarizeAppend([Inserted(order)], published);
    SummarizeOne(Inserted(order));
    Success(Created(Orders.Insert(store, order), order, StatusCreated, Orders.ToJson(order), effects))
  }

  /** `list_orders`: the JSON reply `{"orders": [...]}` for the current store. */
  function ListReply(store: seq<Orders.Order>): (j: Value)
    ensures j.JObj? && j.fields.Keys == {"orders"} && j.fields["orders"].JArr?
    ensures var items := j.fields["orders"].items;
            && |items| == Orders.Min(|store|, Orders.ListLimit)
            && forall i :: 0 <= i < |items| ==> Orders.FromJson(items[i]) == Some(store[i])
  {
    var listed := Orders.ListOrders(store);
    var items := seq(|listed|, i requires 0 <= i < |listed| => Orders.ToJson(listed[i]));
    assert forall i :: 0 <= i < |items| ==> Orders.FromJson(items[i]) == Some(store[i]) by {
      forall i | 0 <= i < |items|
        ensures Orders.FromJson(items[i]) == Some(store[i])
      {
        Orders.RoundTrip(listed[i]);
      }
    }
    JObj(map["orders" := JArr(items)])
  }

  /** Defaulting happens only when the key is absent: a present value,
      including an empty string or `null`, is copied through unchanged. */
  lemma DefaultOnlyWhenAbsent(payload: map<string, Value>, id: string, now: string)
    ensures var o := BuildOrder(payload, id, now);
            && (o.customer == DefaultCustomer <==> ("customer" !in payload || payload["customer"] == DefaultCustomer))
            && (o.notes == DefaultNotes <==> ("notes" !in payload || payload["notes"] == DefaultNotes))
  {
  }

  /** An empty JSON object is falsy, so with no form fields the payload is
      the empty mapping and both fields take their defaults. */
  lemma EmptyObjectGetsDefaults(store: seq<Orders.Order>, cfg: Config, req: Request)
    requires req.json == Some(JObj(map[])) && req.form == map[]
    ensures CreateOrder(store, cfg, req).Success?
    ensures CreateOrder(store, cfg, req).value.order.customer == JStr("anonymous")
    ensures CreateOrder(store, cfg, req).value.order.notes == JStr("")
  {
    assert SelectPayload(req.json, req.form) == Success(map[]);
  }

  /** The store, the order and the reply do not depend on whether the
      publish succeeded: a failed send is swallowed and the order stays. */
  lemma CreateIndependentOfSend(store: seq<Orders.Order>, cfg: Config, req: Request)
    ensures var a := CreateOrder(store, cfg, req.(sendOk := true));
            var b := CreateOrder(store, cfg, req.(sendOk := false));
            && a.Success? == b.Success?
            && (a.Success? ==> a.value.store == b.value.store && a.value.order == b.value.order
                               && a.value.status == b.value.status && a.value.body == b.value.body)
  {
  }

  /** The two routes a client can call. */
  datatype Call = Post(req: Request) | Get

  /** The HTTP reply; `body` is `None` for the framework's error page. */
  datatype Reply = Reply(status: nat, body: Option<Value>)

  /** The outcome of one call: the store after it, the order it created (if
      any), its reply and its side effects. */
  datatype Handled = Handled(store: seq<Orders.Order>, created: seq<Orders.Order>, reply: Reply, effects: seq<Event>)

  function Handle(store: seq<Orders.Order>, cfg: Config, call: Call): (h: Handled)
    ensures call.Get? ==> h.store == store && h.created == [] && h.reply.status == StatusOk && h.effects == []
    ensures call.Post? && h.created == [] ==> h.store == store && h.reply == Reply(StatusServerError, None) && h.effects == []
    ensures call.Post? && h.created != [] ==> h.reply.status == StatusCreated && h.store == Orders.Insert(store, h.created[0])
    ensures call.Get? ==> h.reply.body == Some(ListReply(store))
    ensures call.Post? ==> (h.created != [] <==> CreateOrder(store, cfg, call.req).Success?)
    ensures call.Post? && h.created != [] ==>
              && h.created == [CreateOrder(store, cfg, call.req).value.order]
              && h.reply.body == Some(Orders.ToJson(h.created[0]))
              && h.effects == CreateOrder(store, cfg, call.req).value.effects
    ensures |h.created| <= 1
    ensures h.store == h.created + store
  {
    match call
    case Get => Handled(store, [], Reply(StatusOk, Some(ListReply(store))), [])
    case Post(req) =>
      match CreateOrder(store, cfg, req)
      case Success(c) => Handled(c.store, [c.order], Reply(c.status, Some(c.body)), c.effects)
      case Failure(_) => Handled(store, [], Reply(StatusServerError, None), [])
  }

  /** The outcome of a run of calls against one store. */
  datatype Served = Served(store: seq<Orders.Order>, created: seq<Orders.Order>, replies: seq<Reply>, effects: seq<Event>)

  /** Calls handled one after another, each seeing the store the previous one left. */
  function Serve(store: seq<Orders.Order>, cfg: Config, calls: seq<Call>): (r: Served)
    ensures |r.replies| == |calls|
    ensures |r.created| <= |calls| && |r.store| == |store| + |r.created|
    decreases |calls|
  {
    if calls == [] then Served(store, [], [], [])
    else
      var h := Handle(store, cfg, calls[0]);
      var rest := Serve(h.store, cfg, calls[1..]);
      Served(rest.store, h.created + rest.created, [h.reply] + rest.replies, h.effects + rest.effects)
  }

  /** The orders a run of calls creates, in call order: one per accepted
      `Post`, built from that request's payload, id and time. */
  function AcceptedOrders(calls: seq<Call>): seq<Orders.Order> {
    if calls == [] then []
    else
      var c := calls[0];
      var here := if c.Post? && Accepts(c.req) then [BuildOrder(SelectPayload(c.req.json, c.req.form).value, c.req.id, c.req.now)] else [];
      here + AcceptedOrders(calls[1..])
  }

  /** The status each call is answered with, independently of the store. */
  function StatusFor(call: Call): nat {
    match call
    case Get => StatusOk
    case Post(req) => if Accepts(req) then StatusCreated else StatusServerError
  }

  /** A run creates exactly the orders of its accepted `Post`s, in call order;
      whatever the store holds does not affect which requests succeed. */
  lemma {:induction false} ServeCreated(store: seq<Orders.Order>, cfg: Config, calls: seq<Call>)
    ensures Serve(store, cfg, calls).created == AcceptedOrders(calls)
    decreases |calls|
  {
    if calls != [] {
      var h := Handle(store, cfg, calls[0]);
      var rest := Serve(h.store, cfg, calls[1..]);
      assert Serve(store, cfg, calls).created == h.created + rest.created;
      ServeCreated(h.store, cfg, calls[1..]);
    }
  }

  /** Reply `n` of a run answers call `n`: 200 for a listing, 201 for an
      accepted creation, 500 for a rejected one. */
  lemma {:induction false} ServeReplies(store: seq<Orders.Order>, cfg: Config, calls: seq<Call>)
    ensures forall n :: 0 <= n < |calls| ==> Serve(store, cfg, calls).replies[n].status == StatusFor(calls[n])
    decreases |calls|
  {
    if calls != [] {
      var h := Handle(store, cfg, calls[0]);
      var rest := Serve(h.store, cfg, calls[1..]);
      var replies := Serve(store, cfg, calls).replies;
      assert replies == [h.reply] + rest.replies;
      ServeReplies(h.store, cfg, calls[1..]);
      assert h.reply.status == StatusFor(calls[0]);
      forall n | 1 <= n < |calls|
        ensures replies[n].status == StatusFor(calls[n])
      {
        assert replies[n] == rest.replies[n - 1];
        assert calls[1..][n - 1] == calls[n];
      }
    }
  }

  /** After any run, the store is the orders created by the run, newest
      first, in front of the untouched old store. */
  lemma {:induction false} ServeStore(store: seq<Orders.Order>, cfg: Config, calls: seq<Call>)
    ensures Serve(store, cfg, calls).store == Reverse(Serve(store, cfg, calls).created) + store
    decreases |calls|
  {
    if calls != [] {
      var h := Handle(store, cfg, calls[0]);
      var rest := Serve(h.store, cfg, calls[1..]);
      assert Serve(store, cfg, calls) == Served(rest.store, h.created + rest.created, [h.reply] + rest.replies, h.effects + rest.effects);
      ServeStore(h.store, cfg, calls[1..]);
      FrontAfterStep(store, h.created, rest.created, h.store, rest.store);
    }
  }

  /** `listed` shows the orders of `created` newest first, then the newest of
      `store`, at most `ListLimit` in all. */
  predicate ShowsRun(listed: seq<Orders.Order>, created: seq<Orders.Order>, store: seq<Orders.Order>) {
    var n := |created|;
    && |listed| == Orders.Min(|store| + n, Orders.ListLimit)
    && (forall i :: 0 <= i < |listed| && i < n ==> listed[i] == created[n - 1 - i])
    && (forall i :: n <= i < |listed| ==> listed[i] == store[i - n])
  }

  /** After a run, a listing shows the orders of the run's accepted
      creations, newest first, then the newest of the old store. */
  lemma {:induction false} ServeListing(store: seq<Orders.Order>, cfg: Config, calls: seq<Call>)
    ensures ShowsRun(Orders.ListOrders(Serve(store, cfg, calls).store), AcceptedOrders(calls), store)
  {
    var r := Serve(store, cfg, calls);
    ServeStore(store, cfg, calls);
    ServeCreated(store, cfg, calls);
    ListingAfterRun(r.created, store);
  }

  /** Listing a store made of `created` reversed in front of `store`. */
  lemma {:induction false} ListingAfterRun(created: seq<Orders.Order>, store: seq<Orders.Order>)
    ensures ShowsRun(Orders.ListOrders(Reverse(created) + store), created, store)
  {
    var n := |created|;
    var front := Reverse(created);
    var listed := Orders.ListOrders(front + store);
    forall i | 0 <= i < |listed| && i < n
      ensures listed[i] == created[n - 1 - i]
    {
      ReverseAt(created, i);
      assert listed[i] == (front + store)[i] == front[i];
    }
    forall i | n <= i < |listed|
      ensures listed[i] == store[i - n]
    {
      assert listed[i] == (front + store)[i];
    }
  }

  /** The ids the id generator hands out are unused and pairwise distinct. */
  ghost predicate FreshIds(store: seq<Orders.Order>, calls: seq<Call>) {
    && (forall n :: 0 <= n < |calls| && calls[n].Post? ==> !Orders.HasId(store, calls[n].req.id))
    && (forall n, m :: 0 <= n < m < |calls| && calls[n].Post? && calls[m].Post? ==> calls[n].req.id != calls[m].req.id)
  }

  /** Under fresh ids, stored orders never share an id. Uniqueness rests on
      the generator; the handler itself does not check it. */
  lemma {:induction false} ServeKeepsIdsDistinct(store: seq<Orders.Order>, cfg: Config, calls: seq<Call>)
    requires Orders.DistinctIds(store)
    requires FreshIds(store, calls)
    ensures Orders.DistinctIds(Serve(store, cfg, calls).store)
    decreases |calls|
  {
    if calls != [] {
      var h := Handle(store, cfg, calls[0]);
      var rest := calls[1..];
      assert Orders.DistinctIds(h.store) && FreshIds(h.store, rest) by {
        if h.created != [] {
          var o := h.created[0];
          assert o.id == calls[0].req.id;
          Orders.InsertKeepsIdsDistinct(store, o);
          forall n | 0 <= n < |rest| && rest[n].Post?
            ensures !Orders.HasId(h.store, rest[n].req.id)
          {
            assert rest[n] == calls[n + 1];
          }
        }
      }
      ServeKeepsIdsDistinct(h.store, cfg, rest);
      assert Serve(store, cfg, calls).store == Serve(h.store, cfg, rest).store;
    }
  }

  /** A failed publish still yields 201, and the next listing starts with
      the order just created. */
  lemma {:induction false} PublishFailureIsolated(store: seq<Orders.Order>, cfg: Config, req: Request)
    requires !req.sendOk
    requires CreateOrder(store, cfg, req).Success?
    ensures var o := CreateOrder(store, cfg, req).value.order;
            var r := Serve(store, cfg, [Post(req), Get]);
            && r.created == [o]
            && r.store == Orders.Insert(store, o)
            && r.replies == [Reply(StatusCreated, Some(Orders.ToJson(o))), Reply(StatusOk, Some(ListReply(r.store)))]
            && Orders.ListOrders(r.store)[0] == o
  {
    var c := CreateOrder(store, cfg, req).value;
    var h1 := Handle(store, cfg, Post(req));
    assert h1 == Handled(c.store, [c.order], Reply(StatusCreated, Some(Orders.ToJson(c.order))), c.effects);
    var h2 := Handle(c.store, cfg, Get);
    assert h2 == Handled(c.store, [], Reply(StatusOk, Some(ListReply(c.store))), []);
    assert [Post(req), Get][1..] == [Get];
    assert [Get][1..] == [];
    var tail := Serve(c.store, cfg, [Get]);
    assert tail == Served(c.store, [], [h2.reply], []) by {
      assert Serve(c.store, cfg, []) == Served(c.store, [], [], []);
    }
    assert Serve(store, cfg, [Post(req), Get]) == Served(c.store, [c.order], [h1.reply, h2.reply], c.effects);
  }

  /** Reading twice with no write in between gives the same reply. */
  lemma ReadIsIdempotent(store: seq<Orders.Order>, cfg: Config)
    ensures var r := Serve(store, cfg, [Get, Get]);
            r.replies[0] == r.replies[1] && r.store == store
  {
    assert [Get, Get][1..] == [Get];
    assert [Get][1..] == [];
  }
}

=== FILE: wrappers.dfy ===
/** Failure-compatible helper datatypes used across the model. */
module Wrappers {

  /** An optional value: Python's `None` versus a present value. */
  datatype Option<T> = None | Some(value: T) {

    /** The present value, or `default` when there is none (Python's `x if x is not None else d`). */
    function GetOr(default: T): T {
      match this
      case Some(v) => v
      case None => default
    }
  }

  /** The outcome of an operation that may raise: a value or the error it raised. */
  datatype Result<T, E> = Success(value: T) | Failure(error: E) {

    predicate IsFailure() {
      Failure?
    }

    function PropagateFailure<U>(): Result<U, E>
      requires Failure?
    {
      Failure(error)
    }

    function Extract(): T
      requires Success?
    {
      value
    }
  }
}
